=== FILE: README.md ===
# dgi_members: compound-member resolution, term-URI conditions and facet URL scrubbing

A Dafny model of the sequential core of the Drupal module dgi_members:

- **Compound-member resolution** (`DgiMembersEntityOperations`). The module
  decides whether the route's node is a compound object. That holds when its
  model field's first target is a stored term with a populated external-URI
  field, and either that term's first URI is the Getty AAT "compound objects"
  concept or the site's non-compound-compound predicate accepts the node.
  Without such a term the node is not compound, whatever the predicate says. The module then lists the node's members in `field_weight` order,
  putting the node itself first when the treat-parent-as-first-sibling flag and
  that predicate both hold. Last, it picks the active member. A query
  parameter can name the active member; the hint has three outcomes: no usable
  hint (NULL), invalid hint (FALSE), or a loaded node.
- **Term-URI conditions** (`NodeCompoundCurrentHasTerm`, `NodeHasMediaWithTerm`).
  The first asks whether the active member references a taxonomy term whose
  first external URI equals the configured `uri`. The second asks the same of
  any media of the context node. Both honour a negation flag. Both store the
  selected terms' URIs as one comma-joined string, and split it again when the
  form is rebuilt.
- **Facet URL scrubbing** (`FacetEventSubscriber::urlCreated`). This removes
  the configured member parameters from a facet link's query.

Storage, the request and Drupal plumbing are inputs. Storage is a `World`
record: nodes by id and terms by id, each with tri-state fields (absent,
empty, populated). The route entity, the query parameters, the self-prefix
flag, the non-compound-compound predicate and the member query are fields of
an `Env` record. The predicate and the query are uninterpreted functions. The
member query is expected to satisfy `IsMemberQueryResult`: it returns the
children of the parent, once each, in non-decreasing weight order. The source
runs that query with `accessCheck(TRUE)` (src/DgiMembersEntityOperations.php:173),
so for a viewer who may not see every child the real result omits some
children, while the `load()` calls at :134 and :154 check no access. The
properties that assume `IsMemberQueryResult` (`MembersAreWeightOrderedChildren`,
`MemberOrderIsDetermined` and the scenarios) therefore hold for a viewer who
can see every child of the parent. The media
lookup (`getMedia`) and the term/URI lookups of the configuration forms are
function parameters. Everything is a pure function over immutable datatypes.

Files: `entities.dfy` (entities and storage), `entity_operations.dfy`
(the service), `uri_list.dfy` (`implode`/`explode` on commas),
`term_condition.dfy` (what both condition plugins share),
`compound_current_has_term.dfy`, `media_with_term.dfy`,
`facet_subscriber.dfy`, and `scenarios.dfy` (worked examples).

Behaviour of the code worth noting:

- A node without a populated model field, whose first model target is not a
  stored term, or whose model term lacks a populated external-URI field is
  non-compound at once (src/DgiMembersEntityOperations.php:58-77). The
  non-compound-compound fallback at :85 is never reached in those cases.
- The self-prefix is applied whenever the flag and the non-compound-compound
  predicate hold. The code does not check whether the node was classified by
  the compound URI instead (src/DgiMembersEntityOperations.php:180-183).
- The classifier itself has no configuration gate. Any setting such as
  `allow_compound_display_for_non_compound` is consulted, if at all, inside the
  external predicate (src/DgiMembersEntityOperations.php:56-90).
- The interface documents `membersQueryExecute` as returning FALSE "if none
  found". The implementation returns an empty list when a route entity exists
  without members (src/DgiMembersEntityOperations.php:170-191). The model
  returns `Some([])`.

## Model

| member | source | states |
|---|---|---|
| EntityOperations.NodeFromRouteIsCompound | src/DgiMembersEntityOperations.php:56-90 | FALSE when the route holds no node, the model field is unpopulated, its first target is not a stored term, or that term's external-URI field is unpopulated; TRUE when the first URI is `COMPOUND_URI`; for any other URI, exactly the non-compound-compound predicate |
| EntityOperations.UnclassifiedIgnoresPredicate | src/DgiMembersEntityOperations.php:56-78 | without a model term carrying an external URI, the classifier is FALSE whatever predicate is supplied |
| EntityOperations.CompoundUriIgnoresConfiguration | src/DgiMembersEntityOperations.php:24 | a first external URI equal to `COMPOUND_URI` makes the node compound for every predicate and flag value |
| EntityOperations.Combine | src/DgiMembersEntityOperations.php:185-188 | `array_combine($ids, $ids)` after the unshift: no duplicates, the same ids, the first id stays first, and a duplicate-free list is unchanged |
| EntityOperations.CombineAfterPrepend | src/DgiMembersEntityOperations.php:185-188 | unshifting an id onto a duplicate-free list and combining gives that id followed by the list without its later copy, order kept |
| EntityOperations.MembersQueryExecute | src/DgiMembersEntityOperations.php:162-192 | FALSE exactly when there is no route entity; without the self-prefix the query result unchanged; with it, the route id first, no duplicates, exactly the route id and the queried ids, and, for a duplicate-free query result, the query result minus the route id after it |
| EntityOperations.WithoutKeepsWeightOrder | src/DgiMembersEntityOperations.php:185-188 | dropping the later copy of the route id from a weight-ordered query result leaves it weight-ordered |
| EntityOperations.MembersAreWeightOrderedChildren | src/DgiMembersEntityOperations.php:170-189 | with a well-behaved query the member list has no duplicates; without the self-prefix it is exactly the nodes whose `field_member_of` holds the route id, in non-decreasing weight; with it, the route id comes first and is followed by exactly the other such nodes, still in non-decreasing weight |
| EntityOperations.MemberOrderIsDetermined | src/DgiMembersEntityOperations.php:175 | when the children's weights are pairwise distinct, any two correct query results are equal, so the member order is determined |
| EntityOperations.ActiveMemberFromQueryParameter | src/DgiMembersEntityOperations.php:118-140 | NULL for a blank parameter name or a parameter the request lacks; FALSE exactly when the member list is non-empty and lacks the hinted id; a node only if it is the stored node under the hinted id; NULL otherwise only when that id does not load |
| EntityOperations.EmptyMembersAcceptAnyLoadableHint | src/DgiMembersEntityOperations.php:128-137 | with a FALSE or empty member list, any hinted id that loads becomes the hinted node |
| EntityOperations.RetrieveFirstOfMembers | src/DgiMembersEntityOperations.php:145-157 | FALSE for a FALSE or empty member list, else the node loaded from the first id, always a stored node |
| EntityOperations.SelfPrefixedFirstMemberIsRouteNode | src/DgiMembersEntityOperations.php:180-189 | with the self-prefix active, the first member is the route node itself |
| EntityOperations.RetrieveActiveMember | src/DgiMembersEntityOperations.php:95-103 | an invalid hint gives no active member and a valid one gives the hinted node; with no hint, the first member if the node is compound, else none; a result is always a stored node |
| EntityOperations.InvalidHintIsNotReplaced | src/DgiMembersEntityOperations.php:96-98 | a hint outside a non-empty member list yields no active member, never the first member |
| EntityOperations.HintedMemberWins | src/DgiMembersEntityOperations.php:127-137 | a loadable hinted id that is among the members is the active member, whatever the weights |
| UriList.SplitJoin | src/Plugin/Condition/NodeCompoundCurrentHasTerm.php:115 | `explode(',', implode(',', $uris))` gives back a non-empty list of comma-free URIs |
| UriList.JoinSplit | src/Plugin/Condition/NodeCompoundCurrentHasTerm.php:169 | `implode(',', explode(',', $s))` gives back any string |
| TermCondition.ScanReferences | src/Plugin/Condition/NodeCompoundCurrentHasTerm.php:213-223 | the reference loop finds a match exactly when some referenced entity is a stored term whose populated external-URI field's first uri loosely equals the configured uri |
| TermCondition.ScanDependsOnlyOnSet | src/Plugin/Condition/NodeCompoundCurrentHasTerm.php:213-225 | the reference loop's answer depends only on the set of referenced entities, not their order or repeats |
| TermCondition.JoinedUrisMatchNothing | src/Plugin/Condition/NodeCompoundCurrentHasTerm.php:218 | a `uri` setting joined from two or more URIs matches no reference whose term URI is comma-free |
| TermCondition.CollectUris | src/Plugin/Condition/NodeCompoundCurrentHasTerm.php:158-167 | the collected URIs are exactly the truthy URIs of the selected terms, no more of them than selected terms; one selected term contributes its URI when truthy and nothing otherwise |
| TermCondition.CollectUrisAppend | src/Plugin/Condition/NodeCompoundCurrentHasTerm.php:158-167 | collecting over one selection followed by another appends their URIs, so the URIs appear in selection order and a repeated term repeats its URI |
| TermCondition.SubmittedUri | src/Plugin/Condition/NodeCompoundCurrentHasTerm.php:157-171 | with no URI collected, the previous `uri` is kept; otherwise it is the comma-join of the collected URIs, non-blank, and splits back into them when they are comma-free |
| TermCondition.FormDefaults | src/Plugin/Condition/NodeCompoundCurrentHasTerm.php:113-119 | no default terms exactly when `uri` is blank; otherwise one default per listed URI, default i being the term for URI i |
| TermCondition.SubmitThenRebuild | src/Plugin/Condition/NodeCompoundCurrentHasTerm.php:114-118 | after a submit that collected comma-free URIs, the rebuilt form shows the terms for exactly those URIs, in order |
| TermCondition.ConfiguredUris | src/Plugin/Condition/NodeCompoundCurrentHasTerm.php:114-115 | a blank `uri` lists no URIs; any other lists at least one, none containing a comma, and their comma-join is the setting itself |
| TermCondition.ConfiguredUrisOfJoin | src/Plugin/Condition/NodeCompoundCurrentHasTerm.php:115 | a setting stored as the non-blank join of comma-free URIs lists exactly those URIs again |
| CompoundCurrentHasTerm.EvaluateEntity | src/Plugin/Condition/NodeCompoundCurrentHasTerm.php:212-226 | not negated: TRUE exactly when some referenced term's first external URI equals the whole `uri` setting; negated: TRUE exactly when none does |
| CompoundCurrentHasTerm.Evaluate | src/Plugin/Condition/NodeCompoundCurrentHasTerm.php:182-201 | TRUE for a blank `uri` when not negated, whatever the member state; otherwise FALSE when no active member resolves, negated or not, and else exactly the entity test on the active member |
| CompoundCurrentHasTerm.DefaultConfigPasses | src/Plugin/Condition/NodeCompoundCurrentHasTerm.php:98-106 | the default configuration (`uri` NULL), not negated, is TRUE for every request, through the gate at :184-186 |
| CompoundCurrentHasTerm.LogicIsIgnored | src/Plugin/Condition/NodeCompoundCurrentHasTerm.php:182-226 | the verdict is the same for every value of the `logic` setting |
| CompoundCurrentHasTerm.Submit | src/Plugin/Condition/NodeCompoundCurrentHasTerm.php:155-177 | `logic` and `param` always take the submitted values; `uri` stays unchanged when no URI was collected, else it becomes their comma-join |
| CompoundCurrentHasTerm.MultiTermSubmitNeverMatches | src/Plugin/Condition/NodeCompoundCurrentHasTerm.php:169 | after submitting two or more URIs, the non-negated entity test fails for every entity whose term URIs are comma-free |
| CompoundCurrentHasTerm.MultiTermExample | src/Plugin/Condition/NodeCompoundCurrentHasTerm.php:218 | the setting "a,b" and an entity referencing the term for "a": the code says no, the intended test says yes |
| CompoundCurrentHasTerm.EvaluateEntityIntended | src/Plugin/Condition/NodeCompoundCurrentHasTerm.php:139-147 | agrees with the code for a single comma-free URI; under "or" the result differs from the negation flag exactly when some configured URI is referenced, under "and" exactly when each is |
| CompoundCurrentHasTerm.EvaluateIntended | src/Plugin/Condition/NodeCompoundCurrentHasTerm.php:182-201 | the same gates as `evaluate`; with an active member, the intended entity test on it; and the same verdict as the code for a single comma-free URI |
| MediaWithTerm.ScanMedia | src/Plugin/Condition/NodeHasMediaWithTerm.php:204-216 | the nested loop finds a match exactly when some reference of some media item is a stored term whose first external uri loosely equals the configured uri |
| MediaWithTerm.EvaluateMedia | src/Plugin/Condition/NodeHasMediaWithTerm.php:203-219 | the result differs from the negation flag exactly when such a match exists, so it is FALSE under negation exactly when one does |
| MediaWithTerm.EvaluateMediaIgnoresOrder | src/Plugin/Condition/NodeHasMediaWithTerm.php:204-216 | media lists referencing the same entities give the same verdict, whatever the order of media or references and whatever the repeats |
| MediaWithTerm.Evaluate | src/Plugin/Condition/NodeHasMediaWithTerm.php:173-192 | TRUE for a blank `uri` when not negated; otherwise FALSE without a node, FALSE when the node has no media even if negated, and else exactly the media test |
| MediaWithTerm.DefaultConfigPasses | src/Plugin/Condition/NodeHasMediaWithTerm.php:99-106 | the default configuration (`uri` NULL), not negated, is TRUE for every node and media lookup, through the gate at :175-177 |
| MediaWithTerm.Submit | src/Plugin/Condition/NodeHasMediaWithTerm.php:147-168 | `logic` always takes the submitted value; `uri` stays unchanged when no URI was collected, else it becomes their comma-join |
| MediaWithTerm.MultiTermSubmitNeverMatches | src/Plugin/Condition/NodeHasMediaWithTerm.php:161 | after submitting two or more URIs, the non-negated media test fails for all media whose term URIs are comma-free |
| MediaWithTerm.MultiTermExample | src/Plugin/Condition/NodeHasMediaWithTerm.php:210 | the setting "a,b" and a medium referencing the term for "a": the code says no, the intended test says yes |
| MediaWithTerm.EvaluateMediaIntended | src/Plugin/Condition/NodeHasMediaWithTerm.php:131-139 | agrees with the code for a single comma-free URI; under "or" the result differs from the negation flag exactly when some configured URI is referenced, under "and" exactly when each is |
| MediaWithTerm.EvaluateIntended | src/Plugin/Condition/NodeHasMediaWithTerm.php:173-192 | the same gates as `evaluate`; for a node with media, the intended media test on them; and the same verdict as the code for a single comma-free URI |
| FacetSubscriber.Scrub | src/EventSubscriber/FacetEventSubscriber.php:55-62 | the loop leaves the query minus every listed key, and flags a change exactly when a listed key was present |
| FacetSubscriber.UrlCreated | src/EventSubscriber/FacetEventSubscriber.php:51-67 | the query option is left alone exactly when no listed parameter is present; otherwise the new query has the old keys minus the listed ones, each with its old value |
| FacetSubscriber.UrlCreatedRemovesExactlyMemberParameters | src/EventSubscriber/FacetEventSubscriber.php:55-62 | afterwards no listed parameter remains, every other parameter keeps its value, and nothing is added |
| FacetSubscriber.UrlCreatedIdempotent | src/EventSubscriber/FacetEventSubscriber.php:51-67 | applying the hook to its own result leaves the URL untouched |
| FacetSubscriber.UrlCreatedDependsOnlyOnParameterSet | src/EventSubscriber/FacetEventSubscriber.php:55-61 | parameter lists with the same elements give the same update, whatever their order or repeats |
| Scenarios.DefaultIsLightestMember | src/DgiMembersEntityOperations.php:145-157 | members stored with weights 5, 1, 3 come back in weight order, and the lightest is active without a hint |
| Scenarios.SelfPrefixListsParentFirst | src/DgiMembersEntityOperations.php:180-189 | with the self-prefix, the parent's own id comes before its weight-ordered members and is the first member |
| Scenarios.HintSelectsMember | src/DgiMembersEntityOperations.php:118-137 | `page=2` selects member 2 although it is not the lightest |
| Scenarios.ForeignHintSelectsNothing | src/DgiMembersEntityOperations.php:129-131 | `page=99`, not a member, gives no active member rather than the first one |
| Scenarios.PlainNodeHasNoActiveMember | src/DgiMembersEntityOperations.php:99-102 | a non-compound node with no hint has no active member |

## Findings

| source | as written | input that shows it | evidently intended | confidence | as-written member | corrected member |
|---|---|---|---|---|---|---|
| src/Plugin/Condition/NodeCompoundCurrentHasTerm.php:169 | submit stores the selected URIs comma-joined, but `evaluateEntity` (:218) compares each term URI with the whole joined string and never reads `logic` | `logic` set to "or" and two selected terms with URIs "a" and "b" (setting "a,b"); the active member references the term for "a"; the condition is FALSE | split the setting and combine the per-URI matches with `logic` ("or": any, "and": all), as the form's Logic radios and the doc comment at :209-210 describe | medium; not executed | CompoundCurrentHasTerm.MultiTermSubmitNeverMatches | CompoundCurrentHasTerm.EvaluateEntityIntended |
| src/Plugin/Condition/NodeHasMediaWithTerm.php:161 | submit stores the selected URIs comma-joined, but `evaluateMedia` (:210) compares each term URI with the whole joined string and never reads `logic` | `logic` set to "or" and two selected terms with URIs "a" and "b" (setting "a,b"); a medium of the node references the term for "a"; the condition is FALSE | split the setting and combine the per-URI matches with `logic` ("or": any, "and": all), as the form's Logic radios and the doc comment at :200-201 describe | medium; not executed | MediaWithTerm.MultiTermSubmitNeverMatches | MediaWithTerm.EvaluateMediaIntended |

The corrected tests are used by `CompoundCurrentHasTerm.EvaluateIntended` and
`MediaWithTerm.EvaluateIntended`. These keep the gates of `evaluate` and agree
with the code whenever a single comma-free URI is configured.

## Left out

- js/compound_parts.js: client-side DOM toggling, the AJAX spinner and CSS classes are presentation only.
- dgi_members.post_update.php: a one-shot configuration write with no logic.
- src/DgiMembersEntityOperationsInterface.php: declarations only. Its doc comments are used as contract wording.
- Constructors, `create()`, dependency injection, form arrays, `summary()` strings and translation: Drupal plumbing.
- The entity query itself (`accessCheck`, SQL): taken as the input `memberQuery`. Access control is not modelled: `IsMemberQueryResult` describes the result for a viewer who may see every child; for other viewers the query omits children, and the lemmas that assume `IsMemberQueryResult` say nothing about them. What a correct result looks like is the predicate `IsMemberQueryResult`. Ties in weight stay unordered, as in the source. Nodes without a weight are not modelled.
- `dgi_members_entity_understood_as_non_compound_compound` and `dgi_members_treat_parent_as_first_sibling` are defined outside these files. They are an uninterpreted predicate and a boolean.
- IslandoraUtils `getMedia`, `getUriForTerm` and `getTermForUri` are foreign calls, modelled as function parameters. So is loading the selected terms on submit.
- How the condition framework applies negation on top of `evaluate`: `isNegated` is a boolean input only.
- PHP loose typing of ids: node ids and query-parameter values share one type, so `in_array(..., FALSE)` is plain membership.
- Loose `==` between two numeric strings (PHP compares them as numbers): the link uri is compared with the configured uri as a string. A NULL setting equals only the empty string.
- `Node.references` stands for `referencedEntities()` and is an independent field: nothing ties it to `model` or `memberOf`, whose targets the real method would also return. The worked examples list the model term among the references of the compound node.
- Per-item emptiness of field items: a field counts as populated when its item list is non-empty.
- EntityOperations.RetrieveFirstOfMembers: when the first id does not load, the model returns no member. The source would return NULL against its `FALSE|NodeInterface` return type, which PHP rejects with a TypeError.
- FacetSubscriber.UrlCreated: a URL without a query option is not modelled. The source would pass NULL to `array_key_exists`.

=== FILE: compound_current_has_term.dfy ===
/**
 * The `node_compound_current_has_term` condition: whether the active member
 * of the current compound object references a taxonomy term with the
 * configured external URI.
 */
module CompoundCurrentHasTerm {
  import opened Entities
  import EntityOperations
  import TermCondition
  import UriList

  /** The plugin configuration: `logic`, `uri` (comma-joined URIs or NULL) and `param`. */
  datatype Config = Config(logic: string, uri: Option<string>, param: string)

  /** `defaultConfiguration`. */
  const DefaultConfig: Config := Config("and", None, "")

  /**
   * `evaluateEntity`: on the first referenced term whose first external URI
   * equals the whole `uri` setting, TRUE (FALSE when negated); with none, FALSE
   * (TRUE when negated).
   */
  function EvaluateEntity(w: World, cfg: Config, negated: bool, entity: Node): (r: bool)
    ensures !negated ==>
              (r <==> exists i :: 0 <= i < |entity.references| &&
                                  TermCondition.RefMatches(w, entity.references[i], cfg.uri))
    ensures negated ==>
              (r <==> forall i :: 0 <= i < |entity.references| ==>
                                  !TermCondition.RefMatches(w, entity.references[i], cfg.uri))
  {
    if TermCondition.ScanReferences(w, entity.references, cfg.uri) then !negated else negated
  }

  /**
   * The shape of `evaluate`, with the test applied to the active member left
   * as a parameter.
   */
  function EvaluateActiveMember(cfg: Config, negated: bool, env: EntityOperations.Env, test: Node -> bool): bool {
    if Blank(cfg.uri) && !negated then true
    else
      match EntityOperations.RetrieveActiveMember(env, Some(cfg.param))
      case None => false
      case Some(member) => test(member)
  }

  /** `evaluate`. */
  function Evaluate(cfg: Config, negated: bool, env: EntityOperations.Env): (r: bool)
    ensures Blank(cfg.uri) && !negated ==> r
    ensures !(Blank(cfg.uri) && !negated) && EntityOperations.RetrieveActiveMember(env, Some(cfg.param)).None? ==> !r
    ensures !(Blank(cfg.uri) && !negated) && EntityOperations.RetrieveActiveMember(env, Some(cfg.param)).Some? ==>
              r == EvaluateEntity(env.world, cfg, negated, EntityOperations.RetrieveActiveMember(env, Some(cfg.param)).value)
  {
    EvaluateActiveMember(cfg, negated, env, member => EvaluateEntity(env.world, cfg, negated, member))
  }

  /** A freshly configured condition, not negated, passes whatever the request. */
  lemma DefaultConfigPasses(env: EntityOperations.Env)
    ensures Evaluate(DefaultConfig, false, env)
  {
  }

  /** The `logic` setting is never read: changing it leaves the verdict unchanged. */
  lemma LogicIsIgnored(cfg: Config, logic: string, negated: bool, env: EntityOperations.Env)
    ensures Evaluate(cfg.(logic := logic), negated, env) == Evaluate(cfg, negated, env)
  {
  }

  /**
   * `submitConfigurationForm`: `uri` becomes the comma-join of the selected
   * terms' URIs, or stays as it was when none has one; `logic` and `param`
   * are always overwritten.
   */
  function Submit(cfg: Config, selected: seq<TermId>, uriOf: TermId -> Option<string>,
                  logic: string, param: string): (r: Config)
    ensures r.logic == logic && r.param == param
    ensures TermCondition.CollectUris(selected, uriOf) == [] ==> r.uri == cfg.uri
    ensures TermCondition.CollectUris(selected, uriOf) != [] ==>
              r.uri == Some(UriList.Join(TermCondition.CollectUris(selected, uriOf)))
  {
    Config(logic, TermCondition.SubmittedUri(cfg.uri, selected, uriOf), param)
  }

  // ---------------------------------------------------------------------------
  // Multi-term configuration
  // ---------------------------------------------------------------------------

  /**
   * As written, after a submit that collected two or more URIs the non-negated
   * entity test fails for every entity whose term URIs are comma-free, even one
   * referencing a term with one of the selected URIs.
   */
  lemma MultiTermSubmitNeverMatches(w: World, cfg: Config, selected: seq<TermId>,
                                    uriOf: TermId -> Option<string>, logic: string, param: string, entity: Node)
    requires |TermCondition.CollectUris(selected, uriOf)| >= 2
    requires TermCondition.RefUrisCommaFree(w, entity.references)
    ensures !EvaluateEntity(w, Submit(cfg, selected, uriOf, logic, param), false, entity)
  {
  }

  /** A concrete instance: the entity references the term for "a", the setting is "a,b". */
  lemma MultiTermExample()
    ensures var w := World(map[], map[0 := Term(Items([Link("a")]))]);
            var entity := Node(1, Absent, [], 0, [TermRef(0)]);
            var cfg := Config("or", Some("a,b"), "");
            && !EvaluateEntity(w, cfg, false, entity)
            && EvaluateEntityIntended(w, cfg, false, entity)
  {
    var w := World(map[], map[0 := Term(Items([Link("a")]))]);
    var entity := Node(1, Absent, [], 0, [TermRef(0)]);
    var cfg := Config("or", Some("a,b"), "");
    assert UriList.Join(["a", "b"]) == "a,b";
    assert UriList.CommaFree(["a", "b"]);
    UriList.SplitJoin(["a", "b"]);
    assert TermCondition.ConfiguredUris(cfg.uri)[0] == "a";
    assert TermCondition.RefMatches(w, entity.references[0], Some("a"));
  }

  /**
   * The entity test as the `logic` setting and the doc comment describe it:
   * the `uri` setting is split into its URIs, and the entity passes when it
   * references a term for one of them ("or") or for each of them ("and").
   */
  function EvaluateEntityIntended(w: World, cfg: Config, negated: bool, entity: Node): (r: bool)
    ensures !Blank(cfg.uri) && ',' !in cfg.uri.value ==> r == EvaluateEntity(w, cfg, negated, entity)
    ensures cfg.logic == "or" ==>
              (r != negated <==> exists k, i :: 0 <= k < |TermCondition.ConfiguredUris(cfg.uri)| && 0 <= i < |entity.references| &&
                                     TermCondition.RefMatches(w, entity.references[i], Some(TermCondition.ConfiguredUris(cfg.uri)[k])))
    ensures cfg.logic != "or" ==>
              (r != negated <==> forall k :: 0 <= k < |TermCondition.ConfiguredUris(cfg.uri)| ==>
                                 exists i :: 0 <= i < |entity.references| &&
                                   TermCondition.RefMatches(w, entity.references[i], Some(TermCondition.ConfiguredUris(cfg.uri)[k])))
  {
    var uris := TermCondition.ConfiguredUris(cfg.uri);
    var matched := TermCondition.IntendedMatch(uris, cfg.logic, u => TermCondition.ScanReferences(w, entity.references, Some(u)));
    assert !Blank(cfg.uri) && ',' !in cfg.uri.value ==>
             matched == TermCondition.ScanReferences(w, entity.references, cfg.uri) by {
      if !Blank(cfg.uri) && ',' !in cfg.uri.value {
        TermCondition.SingleUriConfigured(cfg.uri.value);
        TermCondition.IntendedMatchSingle(cfg.uri.value, cfg.logic, u => TermCondition.ScanReferences(w, entity.references, Some(u)));
      }
    }
    if matched then !negated else negated
  }

  /** `evaluate` with the intended entity test. */
  function EvaluateIntended(cfg: Config, negated: bool, env: EntityOperations.Env): (r: bool)
    ensures Blank(cfg.uri) && !negated ==> r
    ensures !(Blank(cfg.uri) && !negated) && EntityOperations.RetrieveActiveMember(env, Some(cfg.param)).None? ==> !r
    ensures !(Blank(cfg.uri) && !negated) && EntityOperations.RetrieveActiveMember(env, Some(cfg.param)).Some? ==>
              r == EvaluateEntityIntended(env.world, cfg, negated, EntityOperations.RetrieveActiveMember(env, Some(cfg.param)).value)
    ensures !Blank(cfg.uri) && ',' !in cfg.uri.value ==> r == Evaluate(cfg, negated, env)
  {
    EvaluateActiveMember(cfg, negated, env, member => EvaluateEntityIntended(env.world, cfg, negated, member))
  }
}

=== FILE: entities.dfy ===
/**
 * The slice of Drupal's entity storage that the dgi_members module reads:
 * nodes with a model field, a membership field and a weight; taxonomy terms
 * with an external-URI field; media; and the storage that loads them by id.
 */
module Entities {

  datatype Option<+T> = None | Some(value: T)

  /** Node ids. Query-parameter values naming a member use the same type. */
  type NodeId = nat

  type TermId = nat

  /**
   * A field as seen through `hasField` and `isEmpty`: the bundle may lack the
   * field altogether, or carry an item list that may be empty.
   */
  datatype Field<T> = Absent | Items(items: seq<T>)

  /** `hasField($f) && !get($f)->isEmpty()`. */
  predicate Populated<T>(f: Field<T>) {
    f.Items? && |f.items| > 0
  }

  /** One value of a link field (the external-URI field of a term). */
  datatype Link = Link(uri: string)

  datatype Term = Term(externalUri: Field<Link>)

  /** The target of an entity-reference item: a taxonomy term or some other entity. */
  datatype EntityRef = TermRef(tid: TermId) | OtherRef

  /**
   * A node. `model` is the model field (a term reference), `memberOf` the
   * values of `field_member_of`, `weight` the value of `field_weight`, and
   * `references` the targets of all its entity-reference fields, in field order.
   */
  datatype Node = Node(
    id: NodeId,
    model: Field<EntityRef>,
    memberOf: seq<NodeId>,
    weight: int,
    references: seq<EntityRef>)

  /** A media entity, reduced to the targets of its entity-reference fields. */
  datatype Media = Media(references: seq<EntityRef>)

  /** Entity storage: nodes and taxonomy terms by id. */
  datatype World = World(nodes: map<NodeId, Node>, terms: map<TermId, Term>)

  /** `getStorage('node')->load($id)`: the stored node, or nothing. */
  function Load(w: World, id: NodeId): (r: Option<Node>)
    ensures r.Some? <==> id in w.nodes
    ensures r.Some? ==> r.value == w.nodes[id]
  {
    if id in w.nodes then Some(w.nodes[id]) else None
  }

  /**
   * The term an entity reference resolves to: nothing for a reference to
   * another entity type or to a term that is not in storage.
   */
  function TargetTerm(w: World, ref: EntityRef): Option<Term> {
    match ref
    case TermRef(tid) => if tid in w.terms then Some(w.terms[tid]) else None
    case OtherRef => None
  }

  /** The uri of the first external-URI value of a term, when that field is populated. */
  function FirstUri(t: Term): (r: Option<string>)
    ensures r.Some? <==> Populated(t.externalUri)
  {
    if Populated(t.externalUri) then Some(t.externalUri.items[0].uri) else None
  }

  /** PHP `empty()` (equivalently `!$s`) on a `?string`: NULL, "" and "0". */
  predicate Blank(s: Option<string>) {
    s.None? || s.value == "" || s.value == "0"
  }

  /** No id occurs twice. */
  predicate NoDuplicates<T(==)>(s: seq<T>) {
    forall i, j :: 0 <= i < j < |s| ==> s[i] != s[j]
  }
}

=== FILE: entity_operations.dfy ===
/**
 * The compound-object service of dgi_members: classifying the route node as a
 * compound object, listing its members in weight order, and choosing the
 * active member from a query parameter or, failing that, the first member.
 */
module EntityOperations {
  import opened Entities

  /** The Getty AAT concept "compound objects". */
  const CompoundUri: string := "http://vocab.getty.edu/aat/300242735"

  /** The value of the route's `node` parameter: a node, or some other entity. */
  datatype RouteEntity = NodeEntity(node: Node) | OtherEntity(otherId: NodeId)

  function RouteId(e: RouteEntity): NodeId {
    match e
    case NodeEntity(n) => n.id
    case OtherEntity(id) => id
  }

  /**
   * Everything one request of the service reads.
   * - `route`: the route's `node` parameter, if any;
   * - `params`: the request's query parameters;
   * - `treatParentAsFirstSibling`: `dgi_members_treat_parent_as_first_sibling()`;
   * - `nonCompoundCompound`: `dgi_members_entity_understood_as_non_compound_compound()`,
   *   defined outside this module and left uninterpreted;
   * - `memberQuery`: the entity query on `field_member_of`, sorted by `field_weight`.
   */
  datatype Env = Env(
    world: World,
    route: Option<RouteEntity>,
    params: map<string, NodeId>,
    treatParentAsFirstSibling: bool,
    nonCompoundCompound: RouteEntity -> bool,
    memberQuery: NodeId -> seq<NodeId>)

  /** Outcome of reading the active member from the request: NULL, FALSE or a node. */
  datatype ParamOutcome = NoHint | InvalidHint | Hinted(node: Node)

  // ---------------------------------------------------------------------------
  // Classifier
  // ---------------------------------------------------------------------------

  /**
   * The term the route node is classified by: the target of the first item of
   * its model field, provided the route holds a node, that field is populated
   * and the target is a stored taxonomy term.
   */
  function ModelTerm(env: Env): Option<Term> {
    match env.route
    case Some(NodeEntity(n)) =>
      if Populated(n.model) then TargetTerm(env.world, n.model.items[0]) else None
    case _ => None
  }

  /** The first external URI of the route node's model term, if every step resolves. */
  function ModelUri(env: Env): Option<string> {
    match ModelTerm(env)
    case Some(t) => FirstUri(t)
    case None => None
  }

  /** `nodeFromRouteIsCompound`. */
  function NodeFromRouteIsCompound(env: Env): (r: bool)
    ensures env.route.None? || env.route.value.OtherEntity? ==> !r
    ensures env.route.Some? && env.route.value.NodeEntity? && !Populated(env.route.value.node.model) ==> !r
    ensures ModelTerm(env).None? ==> !r
    ensures ModelTerm(env).Some? && !Populated(ModelTerm(env).value.externalUri) ==> !r
    ensures ModelUri(env) == Some(CompoundUri) ==> r
    ensures ModelUri(env).Some? && ModelUri(env).value != CompoundUri ==>
              (r <==> env.nonCompoundCompound(env.route.value))
  {
    match env.route
    case None => false
    case Some(OtherEntity(_)) => false
    case Some(NodeEntity(n)) =>
      if !Populated(n.model) then false
      else
        match TargetTerm(env.world, n.model.items[0])
        case None => false
        case Some(term) =>
          if !Populated(term.externalUri) then false
          else if term.externalUri.items[0].uri == CompoundUri then true
          else env.nonCompoundCompound(NodeEntity(n))
  }

  /**
   * Without a model term carrying an external URI, the classifier answers
   * FALSE whatever the non-compound-compound predicate says.
   */
  lemma UnclassifiedIgnoresPredicate(env: Env, other: RouteEntity -> bool)
    requires ModelUri(env).None?
    ensures !NodeFromRouteIsCompound(env)
    ensures !NodeFromRouteIsCompound(env.(nonCompoundCompound := other))
  {
  }

  /** The compound URI decides the classification on its own. */
  lemma CompoundUriIgnoresConfiguration(env: Env, other: RouteEntity -> bool, flag: bool)
    requires ModelUri(env) == Some(CompoundUri)
    ensures NodeFromRouteIsCompound(env.(nonCompoundCompound := other, treatParentAsFirstSibling := flag))
  {
  }

  // ---------------------------------------------------------------------------
  // Member list
  // ---------------------------------------------------------------------------

  /**
   * `array_combine($ids, $ids)`: keys are assigned left to right, so a repeated
   * id keeps the position of its first occurrence and later copies vanish.
   */
  function Combine(s: seq<NodeId>): (r: seq<NodeId>)
    ensures NoDuplicates(r)
    ensures forall x :: x in r <==> x in s
    ensures |s| > 0 ==> |r| > 0 && r[0] == s[0]
    ensures NoDuplicates(s) ==> r == s
    decreases |s|
  {
    if |s| == 0 then []
    else
      var prefix := s[..|s| - 1];
      var last := s[|s| - 1];
      assert s == prefix + [last];
      var d := Combine(prefix);
      if last in d then d else d + [last]
  }

  /** `s` with every occurrence of `x` removed, order kept. */
  function Without(s: seq<NodeId>, x: NodeId): (r: seq<NodeId>)
    ensures forall y :: y in r <==> y in s && y != x
    ensures x !in s ==> r == s
    decreases |s|
  {
    if |s| == 0 then []
    else
      var rest := Without(s[..|s| - 1], x);
      assert s == s[..|s| - 1] + [s[|s| - 1]];
      if s[|s| - 1] == x then rest else rest + [s[|s| - 1]]
  }

  /**
   * Putting `x` in front of a duplicate-free list and combining keeps `x` first
   * and drops its later copy; everything else keeps its order.
   */
  lemma {:induction false} CombineAfterPrepend(x: NodeId, q: seq<NodeId>)
    requires NoDuplicates(q)
    ensures Combine([x] + q) == [x] + Without(q, x)
    decreases |q|
  {
    if |q| == 0 {
      assert [x] + q == [x];
    } else {
      var q' := q[..|q| - 1];
      var y := q[|q| - 1];
      var s := [x] + q;
      var s' := [x] + q';
      assert s[..|s| - 1] == s';
      assert s[|s| - 1] == y;
      assert NoDuplicates(q') by {
        forall i, j | 0 <= i < j < |q'| ensures q'[i] != q'[j] {
          assert q'[i] == q[i] && q'[j] == q[j];
        }
      }
      assert y !in q' by {
        forall i | 0 <= i < |q'| ensures q'[i] != y {
          assert q'[i] == q[i];
        }
      }
      CombineAfterPrepend(x, q');
      assert Combine(s) == if y in Combine(s') then Combine(s') else Combine(s') + [y];
      assert Without(q, x) == if y == x then Without(q', x) else Without(q', x) + [y];
      assert y in Combine(s') <==> y == x;
    }
  }

  /**
   * What the member query is expected to return for `parent`: each node whose
   * `field_member_of` holds `parent`, once, in non-decreasing `field_weight`
   * order (ties in any order).
   */
  predicate IsMemberQueryResult(w: World, parent: NodeId, ids: seq<NodeId>) {
    && NoDuplicates(ids)
    && (forall i :: 0 <= i < |ids| ==> ids[i] in w.nodes && parent in w.nodes[ids[i]].memberOf)
    && (forall id :: id in w.nodes && parent in w.nodes[id].memberOf ==> id in ids)
    && ByWeight(w, ids)
  }

  /** Non-decreasing weights along `s`. */
  predicate ByWeight(w: World, s: seq<NodeId>) {
    forall i, j :: 0 <= i < j < |s| ==> Weight(w, s[i]) <= Weight(w, s[j])
  }

  /** Removing an id from a list in weight order leaves it in weight order. */
  lemma {:induction false} WithoutKeepsWeightOrder(w: World, s: seq<NodeId>, x: NodeId)
    requires ByWeight(w, s)
    ensures ByWeight(w, Without(s, x))
    decreases |s|
  {
    if |s| > 0 {
      var s' := s[..|s| - 1];
      var y := s[|s| - 1];
      assert ByWeight(w, s') by {
        forall i, j | 0 <= i < j < |s'| ensures Weight(w, s'[i]) <= Weight(w, s'[j]) {
          assert s'[i] == s[i] && s'[j] == s[j];
        }
      }
      WithoutKeepsWeightOrder(w, s', x);
      var r' := Without(s', x);
      if y != x {
        var r := r' + [y];
        forall i, j | 0 <= i < j < |r| ensures Weight(w, r[i]) <= Weight(w, r[j]) {
          if j == |r| - 1 {
            assert r[i] == r'[i] && r'[i] in s';
            var k :| 0 <= k < |s'| && s'[k] == r'[i];
            assert s[k] == s'[k];
          } else {
            assert r[i] == r'[i] && r[j] == r'[j];
          }
        }
        assert Without(s, x) == r;
      }
    }
  }

  function Weight(w: World, id: NodeId): int {
    if id in w.nodes then w.nodes[id].weight else 0
  }

  /** Whether the self-prefix of `membersQueryExecute` applies to the route entity. */
  predicate SelfPrefixed(env: Env)
    requires env.route.Some?
  {
    env.treatParentAsFirstSibling && env.nonCompoundCompound(env.route.value)
  }

  /** `membersQueryExecute`: FALSE (None) without a route entity, else the member ids. */
  function MembersQueryExecute(env: Env): (r: Option<seq<NodeId>>)
    ensures r.None? <==> env.route.None?
    ensures env.route.Some? && !SelfPrefixed(env) ==>
              r == Some(env.memberQuery(RouteId(env.route.value)))
    ensures env.route.Some? && SelfPrefixed(env) ==>
              && |r.value| > 0
              && r.value[0] == RouteId(env.route.value)
              && NoDuplicates(r.value)
              && forall x :: x in r.value <==>
                   x == RouteId(env.route.value) || x in env.memberQuery(RouteId(env.route.value))
    ensures env.route.Some? && SelfPrefixed(env) && NoDuplicates(env.memberQuery(RouteId(env.route.value))) ==>
              r == Some([RouteId(env.route.value)] + Without(env.memberQuery(RouteId(env.route.value)), RouteId(env.route.value)))
  {
    match env.route
    case None => None
    case Some(e) =>
      var queried := env.memberQuery(RouteId(e));
      if env.treatParentAsFirstSibling && env.nonCompoundCompound(e) then
        var combined := Combine([RouteId(e)] + queried);
        assert NoDuplicates(queried) ==> combined == [RouteId(e)] + Without(queried, RouteId(e)) by {
          if NoDuplicates(queried) {
            CombineAfterPrepend(RouteId(e), queried);
          }
        }
        Some(combined)
      else
        Some(queried)
  }

  /**
   * With a well-behaved query, the member list is the children of the route
   * entity in non-decreasing weight order, each once. With the self-prefix the
   * route id comes first and the children other than the route entity follow,
   * still in weight order.
   */
  lemma MembersAreWeightOrderedChildren(env: Env)
    requires env.route.Some?
    requires IsMemberQueryResult(env.world, RouteId(env.route.value), env.memberQuery(RouteId(env.route.value)))
    ensures var parent := RouteId(env.route.value);
      var ids := MembersQueryExecute(env).value;
      var children := if SelfPrefixed(env) then ids[1..] else ids;
      && NoDuplicates(ids)
      && (SelfPrefixed(env) ==> ids[0] == parent)
      && ByWeight(env.world, children)
      && (forall id :: id in children <==>
            id in env.world.nodes && parent in env.world.nodes[id].memberOf && (SelfPrefixed(env) ==> id != parent))
  {
    if SelfPrefixed(env) {
      var parent := RouteId(env.route.value);
      var q := env.memberQuery(parent);
      var ids := MembersQueryExecute(env).value;
      WithoutKeepsWeightOrder(env.world, q, parent);
      assert ids[1..] == Without(q, parent);
    }
  }

  /** Strictly increasing weights along `s`. */
  predicate StrictlyByWeight(w: World, s: seq<NodeId>) {
    forall i, j :: 0 <= i < j < |s| ==> Weight(w, s[i]) < Weight(w, s[j])
  }

  lemma SameElementsSameEmptiness(a: seq<NodeId>, b: seq<NodeId>)
    requires forall x :: x in a <==> x in b
    ensures |a| == 0 <==> |b| == 0
  {
    if |a| > 0 {
      assert a[0] in b;
    }
    if |b| > 0 {
      assert b[0] in a;
    }
  }

  lemma {:induction false} StrictlyByWeightUnique(w: World, a: seq<NodeId>, b: seq<NodeId>)
    requires forall x :: x in a <==> x in b
    requires StrictlyByWeight(w, a) && StrictlyByWeight(w, b)
    ensures a == b
  {
    SameElementsSameEmptiness(a, b);
    if |a| > 0 {
      assert a[0] in b;
      assert |b| > 0;
      assert b[0] in a;
      var k :| 0 <= k < |b| && b[k] == a[0];
      var m :| 0 <= m < |a| && a[m] == b[0];
      assert k == 0;
      assert b[0] == a[0];
      forall x ensures x in a[1..] <==> x in b[1..] {
        if x in a[1..] {
          var i :| 1 <= i < |a| && a[i] == x;
          assert Weight(w, a[0]) < Weight(w, a[i]);
          assert x in b;
          var j :| 0 <= j < |b| && b[j] == x;
          assert j != 0;
          assert b[1..][j - 1] == x;
        }
        if x in b[1..] {
          var i :| 1 <= i < |b| && b[i] == x;
          assert Weight(w, b[0]) < Weight(w, b[i]);
          assert x in a;
          var j :| 0 <= j < |a| && a[j] == x;
          assert j != 0;
          assert a[1..][j - 1] == x;
        }
      }
      StrictlyByWeightUnique(w, a[1..], b[1..]);
      assert a == [a[0]] + a[1..];
      assert b == [b[0]] + b[1..];
    }
  }

  /**
   * When no two children of `parent` share a weight, the member query has one
   * correct answer: the weight order fixes the list.
   */
  lemma MemberOrderIsDetermined(w: World, parent: NodeId, a: seq<NodeId>, b: seq<NodeId>)
    requires IsMemberQueryResult(w, parent, a) && IsMemberQueryResult(w, parent, b)
    requires forall i, j :: 0 <= i < j < |a| ==> Weight(w, a[i]) != Weight(w, a[j])
    ensures a == b
  {
    forall i, j | 0 <= i < j < |b| ensures Weight(w, b[i]) < Weight(w, b[j]) {
      assert b[i] in a && b[j] in a;
      var i' :| 0 <= i' < |a| && a[i'] == b[i];
      var j' :| 0 <= j' < |a| && a[j'] == b[j];
      assert i' != j';
    }
    StrictlyByWeightUnique(w, a, b);
  }

  // ---------------------------------------------------------------------------
  // Active member
  // ---------------------------------------------------------------------------

  /** `getActiveMemberFromQueryParameter`. */
  function ActiveMemberFromQueryParameter(env: Env, name: Option<string>): (r: ParamOutcome)
    ensures Blank(name) ==> r == NoHint
    ensures !Blank(name) && name.value !in env.params ==> r == NoHint
    ensures r == InvalidHint <==>
              && !Blank(name) && name.value in env.params
              && MembersQueryExecute(env).Some? && |MembersQueryExecute(env).value| > 0
              && env.params[name.value] !in MembersQueryExecute(env).value
    ensures r.Hinted? ==>
              && !Blank(name) && name.value in env.params
              && Load(env.world, env.params[name.value]) == Some(r.node)
              && (MembersQueryExecute(env).None? || |MembersQueryExecute(env).value| == 0 ||
                  env.params[name.value] in MembersQueryExecute(env).value)
    ensures !Blank(name) && name.value in env.params && r == NoHint ==>
              env.params[name.value] !in env.world.nodes
  {
    if Blank(name) then NoHint
    else if name.value !in env.params then NoHint
    else
      var hint := env.params[name.value];
      var ids := MembersQueryExecute(env);
      if ids.Some? && |ids.value| > 0 && hint !in ids.value then InvalidHint
      else
        match Load(env.world, hint)
        case Some(n) => Hinted(n)
        case None => NoHint
  }

  /** With no member to validate against, any loadable hinted id is accepted. */
  lemma EmptyMembersAcceptAnyLoadableHint(env: Env, name: string)
    requires !Blank(Some(name)) && name in env.params
    requires MembersQueryExecute(env).None? || MembersQueryExecute(env).value == []
    requires env.params[name] in env.world.nodes
    ensures ActiveMemberFromQueryParameter(env, Some(name)) == Hinted(env.world.nodes[env.params[name]])
  {
  }

  /** `retrieveFirstOfMembers`: FALSE (None) for no members, else the first member loaded. */
  function RetrieveFirstOfMembers(env: Env): (r: Option<Node>)
    ensures MembersQueryExecute(env).None? || MembersQueryExecute(env).value == [] ==> r.None?
    ensures MembersQueryExecute(env).Some? && |MembersQueryExecute(env).value| > 0 ==>
              r == Load(env.world, MembersQueryExecute(env).value[0])
    ensures r.Some? ==> r.value in env.world.nodes.Values
  {
    match MembersQueryExecute(env)
    case None => None
    case Some(ids) => if |ids| == 0 then None else Load(env.world, ids[0])
  }

  /** With the self-prefix active, the first member is the route node itself. */
  lemma SelfPrefixedFirstMemberIsRouteNode(env: Env, n: Node)
    requires env.route == Some(NodeEntity(n)) && SelfPrefixed(env)
    requires n.id in env.world.nodes && env.world.nodes[n.id] == n
    ensures RetrieveFirstOfMembers(env) == Some(n)
  {
  }

  /** `retrieveActiveMember`: the query-parameter outcome when it is not NULL, else the default. */
  function RetrieveActiveMember(env: Env, name: Option<string>): (r: Option<Node>)
    ensures ActiveMemberFromQueryParameter(env, name) == InvalidHint ==> r.None?
    ensures ActiveMemberFromQueryParameter(env, name).Hinted? ==>
              r == Some(ActiveMemberFromQueryParameter(env, name).node)
    ensures ActiveMemberFromQueryParameter(env, name) == NoHint ==>
              r == (if NodeFromRouteIsCompound(env) then RetrieveFirstOfMembers(env) else None)
    ensures r.Some? ==> r.value in env.world.nodes.Values
  {
    match ActiveMemberFromQueryParameter(env, name)
    case InvalidHint => None
    case Hinted(n) => Some(n)
    case NoHint => if NodeFromRouteIsCompound(env) then RetrieveFirstOfMembers(env) else None
  }

  /**
   * A hint naming a node outside a non-empty member list yields no active
   * member; it is never replaced by the first member.
   */
  lemma InvalidHintIsNotReplaced(env: Env, name: string)
    requires !Blank(Some(name)) && name in env.params
    requires MembersQueryExecute(env).Some? && |MembersQueryExecute(env).value| > 0
    requires env.params[name] !in MembersQueryExecute(env).value
    ensures RetrieveActiveMember(env, Some(name)).None?
  {
  }

  /** A hint naming a loadable member is the active member, whatever the weights. */
  lemma HintedMemberWins(env: Env, name: string)
    requires !Blank(Some(name)) && name in env.params
    requires MembersQueryExecute(env).Some? && env.params[name] in MembersQueryExecute(env).value
    requires env.params[name] in env.world.nodes
    ensures RetrieveActiveMember(env, Some(name)) == Some(env.world.nodes[env.params[name]])
  {
  }
}

=== FILE: facet_subscriber.dfy ===
/**
 * The facet URL hook of dgi_members: facet links must not carry the query
 * parameters that select an active member.
 */
module FacetSubscriber {

  /** What `urlCreated` does to the URL: leaves it alone, or sets a new query option. */
  datatype QueryUpdate<V> = Untouched | Replaced(query: map<string, V>)

  /** The state of the `foreach` over `member_parameters`: the query so far and `$changed`. */
  datatype Scrubbed<V> = Scrubbed(query: map<string, V>, changed: bool)

  function Elements(params: seq<string>): set<string> {
    set p | p in params
  }

  /**
   * The loop of `urlCreated`: unset each listed parameter that is present, and
   * note whether any was.
   */
  function Scrub<V>(query: map<string, V>, params: seq<string>): (r: Scrubbed<V>)
    ensures r.query == query - Elements(params)
    ensures r.changed <==> exists i :: 0 <= i < |params| && params[i] in query
    decreases |params|
  {
    if |params| == 0 then Scrubbed(query, false)
    else
      var p := params[0];
      var present := p in query;
      var rest := Scrub(if present then query - {p} else query, params[1..]);
      assert Elements(params) == {p} + Elements(params[1..]);
      assert forall i :: 1 <= i < |params| ==> params[i] == params[1..][i - 1];
      Scrubbed(rest.query, present || rest.changed)
  }

  /** `urlCreated`, given the URL's query option and the `member_parameters` setting. */
  function UrlCreated<V>(query: map<string, V>, memberParameters: seq<string>): (r: QueryUpdate<V>)
    ensures r.Untouched? <==> forall i :: 0 <= i < |memberParameters| ==> memberParameters[i] !in query
    ensures r.Replaced? ==> r.query.Keys == query.Keys - Elements(memberParameters)
    ensures r.Replaced? ==> forall k :: k in r.query ==> r.query[k] == query[k]
  {
    var s := Scrub(query, memberParameters);
    if s.changed then Replaced(s.query) else Untouched
  }

  /** The query the URL carries after the hook. */
  function Effective<V>(query: map<string, V>, update: QueryUpdate<V>): map<string, V> {
    match update
    case Untouched => query
    case Replaced(q) => q
  }

  /**
   * After the hook no member parameter remains, and every other parameter
   * keeps its value.
   */
  lemma UrlCreatedRemovesExactlyMemberParameters<V>(query: map<string, V>, memberParameters: seq<string>)
    ensures var after := Effective(query, UrlCreated(query, memberParameters));
      && (forall i :: 0 <= i < |memberParameters| ==> memberParameters[i] !in after)
      && (forall k :: k in query && k !in Elements(memberParameters) ==> k in after && after[k] == query[k])
      && (forall k :: k in after ==> k in query)
  {
  }

  /** Running the hook on its own output changes nothing more. */
  lemma UrlCreatedIdempotent<V>(query: map<string, V>, memberParameters: seq<string>)
    ensures var once := Effective(query, UrlCreated(query, memberParameters));
      && UrlCreated(once, memberParameters) == Untouched
      && Effective(once, UrlCreated(once, memberParameters)) == once
  {
  }

  /** Only the set of configured parameters matters, not their order or repeats. */
  lemma UrlCreatedDependsOnlyOnParameterSet<V>(query: map<string, V>, a: seq<string>, b: seq<string>)
    requires Elements(a) == Elements(b)
    ensures UrlCreated(query, a) == UrlCreated(query, b)
  {
    if UrlCreated(query, a).Untouched? != UrlCreated(query, b).Untouched? {
      if UrlCreated(query, a).Replaced? {
        var i :| 0 <= i < |a| && a[i] in query;
        assert a[i] in Elements(b);
      } else {
        var i :| 0 <= i < |b| && b[i] in query;
        assert b[i] in Elements(a);
      }
    }
  }
}

=== FILE: media_with_term.dfy ===
/**
 * The `node_has_media_with_term` condition: whether some media of the context
 * node references a taxonomy term with the configured external URI.
 */
module MediaWithTerm {
  import opened Entities
  import TermCondition
  import UriList

  /** The plugin configuration: `logic` and `uri` (comma-joined URIs or NULL). */
  datatype Config = Config(logic: string, uri: Option<string>)

  /** `defaultConfiguration`. */
  const DefaultConfig: Config := Config("and", None)

  /** The nested `foreach` of `evaluateMedia`: whether it reaches a matching reference. */
  function ScanMedia(w: World, media: seq<Media>, configured: Option<string>): (found: bool)
    ensures found <==>
              exists m, i :: 0 <= m < |media| && 0 <= i < |media[m].references| &&
                             TermCondition.RefMatches(w, media[m].references[i], configured)
  {
    if |media| == 0 then false
    else if TermCondition.ScanReferences(w, media[0].references, configured) then true
    else
      var found := ScanMedia(w, media[1..], configured);
      assert forall m :: 1 <= m < |media| ==> media[m] == media[1..][m - 1];
      found
  }

  /** `evaluateMedia`: TRUE on the first match (FALSE when negated), else FALSE (TRUE when negated). */
  function EvaluateMedia(w: World, cfg: Config, negated: bool, media: seq<Media>): (r: bool)
    ensures r != negated <==>
              exists m, i :: 0 <= m < |media| && 0 <= i < |media[m].references| &&
                             TermCondition.RefMatches(w, media[m].references[i], cfg.uri)
  {
    if ScanMedia(w, media, cfg.uri) then !negated else negated
  }

  /** Everything the given media reference. */
  ghost function Referenced(media: seq<Media>): set<EntityRef> {
    set m, i | 0 <= m < |media| && 0 <= i < |media[m].references| :: media[m].references[i]
  }

  /**
   * The verdict depends on the media only through what they reference: neither
   * the order of the media, nor the order of their references, nor repeats matter.
   */
  lemma EvaluateMediaIgnoresOrder(w: World, cfg: Config, negated: bool, a: seq<Media>, b: seq<Media>)
    requires Referenced(a) == Referenced(b)
    ensures EvaluateMedia(w, cfg, negated, a) == EvaluateMedia(w, cfg, negated, b)
  {
    if ScanMedia(w, a, cfg.uri) {
      var m, i :| 0 <= m < |a| && 0 <= i < |a[m].references| && TermCondition.RefMatches(w, a[m].references[i], cfg.uri);
      assert a[m].references[i] in Referenced(b);
    }
    if ScanMedia(w, b, cfg.uri) {
      var m, i :| 0 <= m < |b| && 0 <= i < |b[m].references| && TermCondition.RefMatches(w, b[m].references[i], cfg.uri);
      assert b[m].references[i] in Referenced(a);
    }
  }

  /**
   * `evaluate`, for the context node (if any) and `getMedia` as the lookup of
   * its media.
   */
  function Evaluate(cfg: Config, negated: bool, w: World, node: Option<Node>, getMedia: Node -> seq<Media>): (r: bool)
    ensures Blank(cfg.uri) && !negated ==> r
    ensures !(Blank(cfg.uri) && !negated) && node.None? ==> !r
    ensures !(Blank(cfg.uri) && !negated) && node.Some? && getMedia(node.value) == [] ==> !r
    ensures !(Blank(cfg.uri) && !negated) && node.Some? && getMedia(node.value) != [] ==>
              r == EvaluateMedia(w, cfg, negated, getMedia(node.value))
  {
    if Blank(cfg.uri) && !negated then true
    else
      match node
      case None => false
      case Some(n) =>
        var media := getMedia(n);
        var data := EvaluateMedia(w, cfg, negated, media);
        |media| > 0 && data
  }

  /** A freshly configured condition, not negated, passes whatever the node. */
  lemma DefaultConfigPasses(w: World, node: Option<Node>, getMedia: Node -> seq<Media>)
    ensures Evaluate(DefaultConfig, false, w, node, getMedia)
  {
  }

  /**
   * `submitConfigurationForm`: `uri` becomes the comma-join of the selected
   * terms' URIs, or stays as it was when none has one; `logic` is always
   * overwritten.
   */
  function Submit(cfg: Config, selected: seq<TermId>, uriOf: TermId -> Option<string>, logic: string): (r: Config)
    ensures r.logic == logic
    ensures TermCondition.CollectUris(selected, uriOf) == [] ==> r.uri == cfg.uri
    ensures TermCondition.CollectUris(selected, uriOf) != [] ==>
              r.uri == Some(UriList.Join(TermCondition.CollectUris(selected, uriOf)))
  {
    Config(logic, TermCondition.SubmittedUri(cfg.uri, selected, uriOf))
  }

  // ---------------------------------------------------------------------------
  // Multi-term configuration
  // ---------------------------------------------------------------------------

  /** No term referenced by the media has a first external URI containing a comma. */
  predicate MediaUrisCommaFree(w: World, media: seq<Media>) {
    forall m :: 0 <= m < |media| ==> TermCondition.RefUrisCommaFree(w, media[m].references)
  }

  /**
   * As written, after a submit that collected two or more URIs the non-negated
   * media test fails for all media whose term URIs are comma-free.
   */
  lemma MultiTermSubmitNeverMatches(w: World, cfg: Config, selected: seq<TermId>,
                                    uriOf: TermId -> Option<string>, logic: string, media: seq<Media>)
    requires |TermCondition.CollectUris(selected, uriOf)| >= 2
    requires MediaUrisCommaFree(w, media)
    ensures !EvaluateMedia(w, Submit(cfg, selected, uriOf, logic), false, media)
  {
  }

  /**
   * The media test as the `logic` setting and the doc comment describe it: the
   * `uri` setting is split into its URIs, and the media pass when they
   * reference a term for one of them ("or") or for each of them ("and").
   */
  function EvaluateMediaIntended(w: World, cfg: Config, negated: bool, media: seq<Media>): (r: bool)
    ensures !Blank(cfg.uri) && ',' !in cfg.uri.value ==> r == EvaluateMedia(w, cfg, negated, media)
    ensures cfg.logic == "or" ==>
              (r != negated <==> exists k :: 0 <= k < |TermCondition.ConfiguredUris(cfg.uri)| &&
                                  ScanMedia(w, media, Some(TermCondition.ConfiguredUris(cfg.uri)[k])))
    ensures cfg.logic != "or" ==>
              (r != negated <==> forall k :: 0 <= k < |TermCondition.ConfiguredUris(cfg.uri)| ==>
                                  ScanMedia(w, media, Some(TermCondition.ConfiguredUris(cfg.uri)[k])))
  {
    var uris := TermCondition.ConfiguredUris(cfg.uri);
    var matched := TermCondition.IntendedMatch(uris, cfg.logic, u => ScanMedia(w, media, Some(u)));
    assert !Blank(cfg.uri) && ',' !in cfg.uri.value ==> matched == ScanMedia(w, media, cfg.uri) by {
      if !Blank(cfg.uri) && ',' !in cfg.uri.value {
        TermCondition.SingleUriConfigured(cfg.uri.value);
        TermCondition.IntendedMatchSingle(cfg.uri.value, cfg.logic, u => ScanMedia(w, media, Some(u)));
      }
    }
    if matched then !negated else negated
  }

  /** A concrete instance: one medium references the term for "a", the setting is "a,b". */
  lemma MultiTermExample()
    ensures var w := World(map[], map[0 := Term(Items([Link("a")]))]);
            var media := [Media([TermRef(0)])];
            var cfg := Config("or", Some("a,b"));
            && !EvaluateMedia(w, cfg, false, media)
            && EvaluateMediaIntended(w, cfg, false, media)
  {
    var w := World(map[], map[0 := Term(Items([Link("a")]))]);
    var media := [Media([TermRef(0)])];
    var cfg := Config("or", Some("a,b"));
    assert UriList.Join(["a", "b"]) == "a,b";
    assert UriList.CommaFree(["a", "b"]);
    UriList.SplitJoin(["a", "b"]);
    assert TermCondition.ConfiguredUris(cfg.uri)[0] == "a";
    assert TermCondition.RefMatches(w, media[0].references[0], Some("a"));
  }

  /** `evaluate` with the intended media test. */
  function EvaluateIntended(cfg: Config, negated: bool, w: World, node: Option<Node>, getMedia: Node -> seq<Media>): (r: bool)
    ensures Blank(cfg.uri) && !negated ==> r
    ensures !(Blank(cfg.uri) && !negated) && (node.None? || getMedia(node.value) == []) ==> !r
    ensures !(Blank(cfg.uri) && !negated) && node.Some? && getMedia(node.value) != [] ==>
              r == EvaluateMediaIntended(w, cfg, negated, getMedia(node.value))
    ensures !Blank(cfg.uri) && ',' !in cfg.uri.value ==> r == Evaluate(cfg, negated, w, node, getMedia)
  {
    if Blank(cfg.uri) && !negated then true
    else
      match node
      case None => false
      case Some(n) =>
        var media := getMedia(n);
        |media| > 0 && EvaluateMediaIntended(w, cfg, negated, media)
  }
}

=== FILE: scenarios.dfy ===
/**
 * Worked examples of member resolution: a compound object E (id 10) with
 * members M1, M2, M3 of weights 1, 3 and 5, stored out of weight order.
 */
module Scenarios {
  import opened Entities
  import opened EntityOperations

  const CompoundTerm: Term := Term(Items([Link(CompoundUri)]))

  const E: Node := Node(10, Items([TermRef(0)]), [], 0, [TermRef(0)])
  const M1: Node := Node(1, Absent, [10], 1, [])
  const M2: Node := Node(2, Absent, [10], 3, [])
  const M3: Node := Node(3, Absent, [10], 5, [])

  const Storage: World := World(map[3 := M3, 10 := E, 1 := M1, 2 := M2], map[0 := CompoundTerm])

  /** A request for E whose member query behaves as the entity query does. */
  predicate RequestForE(env: Env) {
    && env.world == Storage
    && env.route == Some(NodeEntity(E))
    && IsMemberQueryResult(Storage, 10, env.memberQuery(10))
  }

  lemma QueryForEIsWeightOrder(env: Env)
    requires RequestForE(env)
    ensures env.memberQuery(10) == [1, 2, 3]
  {
    assert IsMemberQueryResult(Storage, 10, [1, 2, 3]);
    MemberOrderIsDetermined(Storage, 10, [1, 2, 3], env.memberQuery(10));
  }

  /** Members come back in weight order, and the first of them is active by default. */
  lemma DefaultIsLightestMember(env: Env)
    requires RequestForE(env) && !env.treatParentAsFirstSibling
    ensures MembersQueryExecute(env) == Some([1, 2, 3])
    ensures RetrieveActiveMember(env, None) == Some(M1)
  {
    QueryForEIsWeightOrder(env);
    assert ModelUri(env) == Some(CompoundUri);
  }

  /** With the self-prefix in force, E lists itself first. */
  lemma SelfPrefixListsParentFirst(env: Env)
    requires RequestForE(env) && env.treatParentAsFirstSibling && env.nonCompoundCompound(NodeEntity(E))
    ensures MembersQueryExecute(env) == Some([10, 1, 2, 3])
    ensures RetrieveFirstOfMembers(env) == Some(E)
  {
    QueryForEIsWeightOrder(env);
    var q := env.memberQuery(10);
    assert NoDuplicates(q);
    assert 10 !in q;
    assert Without(q, 10) == q;
    assert MembersQueryExecute(env) == Some([10] + q);
    assert [10] + q == [10, 1, 2, 3];
  }

  /** `page=2` selects M2 whatever the weights say. */
  lemma HintSelectsMember(env: Env)
    requires RequestForE(env) && env.params == map["page" := 2]
    ensures RetrieveActiveMember(env, Some("page")) == Some(M2)
  {
  }

  /** `page=99` names no member: no active member, not M1. */
  lemma ForeignHintSelectsNothing(env: Env)
    requires RequestForE(env) && env.params == map["page" := 99]
    ensures RetrieveActiveMember(env, Some("page")) == None
  {
  }

  /** A node that is not compound and has no hint has no active member. */
  lemma PlainNodeHasNoActiveMember(env: Env)
    requires env.world == Storage && env.route == Some(NodeEntity(M1))
    ensures RetrieveActiveMember(env, None) == None
  {
  }
}

=== FILE: term_condition.dfy ===
/**
 * What the two term-URI condition plugins share: the test a referenced entity
 * passes, the scan over a list of references, the URI list stored on submit
 * and rebuilt into form defaults, and the multi-URI matching the `logic`
 * setting describes.
 */
module TermCondition {
  import opened Entities
  import UriList

  /**
   * PHP's loose `$link['uri'] == $configuration['uri']` between a string and a
   * `?string`: NULL is equal only to the empty string.
   */
  predicate UriMatches(linkUri: string, configured: Option<string>) {
    match configured
    case None => linkUri == ""
    case Some(c) => linkUri == c
  }

  /**
   * A referenced entity counts when it is a taxonomy term whose external-URI
   * field is populated and whose first value's uri matches the configured uri.
   */
  predicate RefMatches(w: World, ref: EntityRef, configured: Option<string>) {
    RefUri(w, ref).Some? && UriMatches(RefUri(w, ref).value, configured)
  }

  /** The first external URI of the term a reference resolves to, if any. */
  function RefUri(w: World, ref: EntityRef): Option<string> {
    match TargetTerm(w, ref)
    case None => None
    case Some(t) => FirstUri(t)
  }

  /** No referenced term's first external URI contains a comma. */
  predicate RefUrisCommaFree(w: World, refs: seq<EntityRef>) {
    forall i :: 0 <= i < |refs| && RefUri(w, refs[i]).Some? ==> ',' !in RefUri(w, refs[i]).value
  }

  /** The `foreach` over referenced entities: whether it reaches a matching one. */
  function ScanReferences(w: World, refs: seq<EntityRef>, configured: Option<string>): (found: bool)
    ensures found <==> exists i :: 0 <= i < |refs| && RefMatches(w, refs[i], configured)
  {
    if |refs| == 0 then false
    else if RefMatches(w, refs[0], configured) then true
    else
      var found := ScanReferences(w, refs[1..], configured);
      assert forall i :: 1 <= i < |refs| ==> refs[i] == refs[1..][i - 1];
      found
  }

  /** The scan depends on the references only through the set of them. */
  lemma ScanDependsOnlyOnSet(w: World, a: seq<EntityRef>, b: seq<EntityRef>, configured: Option<string>)
    requires forall r :: r in a <==> r in b
    ensures ScanReferences(w, a, configured) == ScanReferences(w, b, configured)
  {
    if ScanReferences(w, a, configured) {
      var i :| 0 <= i < |a| && RefMatches(w, a[i], configured);
      assert a[i] in b;
    }
    if ScanReferences(w, b, configured) {
      var i :| 0 <= i < |b| && RefMatches(w, b[i], configured);
      assert b[i] in a;
    }
  }

  /**
   * A `uri` setting joined from two or more URIs is matched by no reference
   * whose term URI is comma-free: the comparison is against the whole string.
   */
  lemma JoinedUrisMatchNothing(w: World, refs: seq<EntityRef>, uris: seq<string>)
    requires |uris| >= 2 && RefUrisCommaFree(w, refs)
    ensures !ScanReferences(w, refs, Some(UriList.Join(uris)))
  {
  }

  // ---------------------------------------------------------------------------
  // Submit and form rebuild
  // ---------------------------------------------------------------------------

  /**
   * The loop of `submitConfigurationForm`: the URI of each selected term, in
   * selection order, keeping only truthy ones (`if ($uri)`).
   */
  function CollectUris(selected: seq<TermId>, uriOf: TermId -> Option<string>): (uris: seq<string>)
    ensures |uris| <= |selected|
    ensures forall i :: 0 <= i < |uris| ==> !Blank(Some(uris[i]))
    ensures |selected| == 1 ==>
              uris == (if Blank(uriOf(selected[0])) then [] else [uriOf(selected[0]).value])
    ensures forall u :: u in uris <==>
              exists i :: 0 <= i < |selected| && uriOf(selected[i]) == Some(u) && !Blank(Some(u))
  {
    if |selected| == 0 then []
    else
      var rest := CollectUris(selected[1..], uriOf);
      assert forall i :: 1 <= i < |selected| ==> selected[i] == selected[1..][i - 1];
      var u := uriOf(selected[0]);
      if !Blank(u) then [u.value] + rest else rest
  }

  /**
   * Collecting over two selections in a row appends their URIs: selection
   * order is kept, and a term selected twice contributes its URI twice.
   */
  lemma {:induction false} CollectUrisAppend(a: seq<TermId>, b: seq<TermId>, uriOf: TermId -> Option<string>)
    ensures CollectUris(a + b, uriOf) == CollectUris(a, uriOf) + CollectUris(b, uriOf)
    decreases |a|
  {
    if |a| == 0 {
      assert a + b == b;
    } else {
      assert (a + b)[1..] == a[1..] + b;
      assert (a + b)[0] == a[0];
      CollectUrisAppend(a[1..], b, uriOf);
    }
  }

  /** A join of truthy URIs is itself truthy, so the rebuilt form does split it. */
  lemma JoinOfTruthyIsTruthy(uris: seq<string>)
    requires |uris| > 0 && forall i :: 0 <= i < |uris| ==> !Blank(Some(uris[i]))
    ensures !Blank(Some(UriList.Join(uris)))
  {
  }

  /**
   * The `uri` setting after `submitConfigurationForm`: the comma-join of the
   * collected URIs, or the previous setting when none was collected.
   */
  function SubmittedUri(previous: Option<string>, selected: seq<TermId>, uriOf: TermId -> Option<string>): (r: Option<string>)
    ensures CollectUris(selected, uriOf) == [] ==> r == previous
    ensures CollectUris(selected, uriOf) != [] ==>
              && r == Some(UriList.Join(CollectUris(selected, uriOf)))
              && !Blank(r)
    ensures CollectUris(selected, uriOf) != [] && UriList.CommaFree(CollectUris(selected, uriOf)) ==>
              UriList.Split(r.value) == CollectUris(selected, uriOf)
  {
    if |selected| == 0 then previous
    else
      var uris := CollectUris(selected, uriOf);
      if |uris| == 0 then previous
      else
        JoinOfTruthyIsTruthy(uris);
        assert UriList.CommaFree(uris) ==> UriList.Split(UriList.Join(uris)) == uris by {
          if UriList.CommaFree(uris) {
            UriList.SplitJoin(uris);
          }
        }
        Some(UriList.Join(uris))
  }

  /** `getTermForUri` applied to each URI in order. */
  function TermsForUris(uris: seq<string>, termForUri: string -> Option<TermId>): (r: seq<Option<TermId>>)
    ensures |r| == |uris|
    ensures forall i :: 0 <= i < |uris| ==> r[i] == termForUri(uris[i])
  {
    if |uris| == 0 then []
    else
      var rest := TermsForUris(uris[1..], termForUri);
      assert forall i :: 1 <= i < |uris| ==> uris[i] == uris[1..][i - 1];
      [termForUri(uris[0])] + rest
  }

  /**
   * The default of the term widget in `buildConfigurationForm`: the terms for
   * the comma-separated pieces of a non-empty `uri` setting.
   */
  function FormDefaults(uri: Option<string>, termForUri: string -> Option<TermId>): (r: seq<Option<TermId>>)
    ensures r == [] <==> Blank(uri)
    ensures |r| == |ConfiguredUris(uri)|
    ensures forall i :: 0 <= i < |r| ==> r[i] == termForUri(ConfiguredUris(uri)[i])
  {
    TermsForUris(ConfiguredUris(uri), termForUri)
  }

  /**
   * Submitting comma-free URIs and rebuilding the form shows the terms for
   * exactly the collected URIs, in order.
   */
  lemma SubmitThenRebuild(previous: Option<string>, selected: seq<TermId>,
                          uriOf: TermId -> Option<string>, termForUri: string -> Option<TermId>)
    requires CollectUris(selected, uriOf) != [] && UriList.CommaFree(CollectUris(selected, uriOf))
    ensures FormDefaults(SubmittedUri(previous, selected, uriOf), termForUri)
            == TermsForUris(CollectUris(selected, uriOf), termForUri)
  {
    var uris := CollectUris(selected, uriOf);
    JoinOfTruthyIsTruthy(uris);
    ConfiguredUrisOfJoin(uris);
  }

  // ---------------------------------------------------------------------------
  // Multi-URI matching as the `logic` setting describes it
  // ---------------------------------------------------------------------------

  /** The URIs a `uri` setting lists: its comma-separated pieces, none when blank. */
  function ConfiguredUris(uri: Option<string>): (uris: seq<string>)
    ensures Blank(uri) ==> uris == []
    ensures !Blank(uri) ==> |uris| > 0 && UriList.CommaFree(uris) && UriList.Join(uris) == uri.value
  {
    if Blank(uri) then []
    else
      UriList.SplitIsCommaFree(uri.value);
      UriList.JoinSplit(uri.value);
      UriList.Split(uri.value)
  }

  /** A non-blank join of comma-free URIs lists exactly those URIs. */
  lemma ConfiguredUrisOfJoin(uris: seq<string>)
    requires |uris| > 0 && UriList.CommaFree(uris) && !Blank(Some(UriList.Join(uris)))
    ensures ConfiguredUris(Some(UriList.Join(uris))) == uris
  {
    var listed := ConfiguredUris(Some(UriList.Join(uris)));
    UriList.SplitJoin(listed);
    UriList.SplitJoin(uris);
  }

  /**
   * Whether the configured URIs are matched under `logic`: "or" asks for one
   * of them, anything else (the default "and") for all of them.
   */
  predicate IntendedMatch(uris: seq<string>, logic: string, matched: string -> bool) {
    if logic == "or" then exists i :: 0 <= i < |uris| && matched(uris[i])
    else forall i :: 0 <= i < |uris| ==> matched(uris[i])
  }

  /** For a single URI the two logics agree, and agree with testing that URI. */
  lemma IntendedMatchSingle(u: string, logic: string, matched: string -> bool)
    ensures IntendedMatch([u], logic, matched) == matched(u)
  {
    assert [u][0] == u;
  }

  /** A comma-free `uri` setting lists just itself. */
  lemma SingleUriConfigured(u: string)
    requires !Blank(Some(u)) && ',' !in u
    ensures ConfiguredUris(Some(u)) == [u]
  {
    assert UriList.CommaFree([u]) by {
      assert forall i :: 0 <= i < |[u]| ==> [u][i] == u;
    }
    assert UriList.Join([u]) == u + UriList.JoinRest([]);
    assert u + "" == u;
    ConfiguredUrisOfJoin([u]);
  }
}

=== FILE: uri_list.dfy ===
/**
 * The condition plugins store their list of term URIs as one string:
 * `implode(',', $uris)` on submit and `explode(',', $uri)` when the form is
 * rebuilt.
 */
module UriList {

  /** `implode(',', parts)`. */
  function Join(parts: seq<string>): string {
    if |parts| == 0 then "" else parts[0] + JoinRest(parts[1..])
  }

  /** Each of `parts` preceded by a comma. */
  function JoinRest(parts: seq<string>): string {
    if |parts| == 0 then "" else "," + parts[0] + JoinRest(parts[1..])
  }

  /** `explode(',', s)`: the pieces between commas; the empty string gives `[""]`. */
  function Split(s: string): (pieces: seq<string>)
    ensures |pieces| > 0
  {
    if |s| == 0 then [""]
    else
      var rest := Split(s[1..]);
      if s[0] == ',' then [""] + rest
      else [[s[0]] + rest[0]] + rest[1..]
  }

  predicate CommaFree(parts: seq<string>) {
    forall i :: 0 <= i < |parts| ==> ',' !in parts[i]
  }

  /** Splitting a comma-free prefix glues it onto the first piece of what follows. */
  lemma {:induction false} SplitCommaFreePrefix(a: string, t: string)
    requires ',' !in a
    ensures Split(a + t) == [a + Split(t)[0]] + Split(t)[1..]
    decreases |a|
  {
    if |a| > 0 {
      assert (a + t)[1..] == a[1..] + t;
      assert (a + t)[0] == a[0];
      SplitCommaFreePrefix(a[1..], t);
      assert [a[0]] + (a[1..] + Split(t)[0]) == a + Split(t)[0];
    } else {
      assert a + t == t;
      assert a + Split(t)[0] == Split(t)[0];
      assert Split(t) == [Split(t)[0]] + Split(t)[1..];
    }
  }

  /** Splitting a joined comma-free list gives the list back. */
  lemma {:induction false} SplitJoin(parts: seq<string>)
    requires |parts| > 0 && CommaFree(parts)
    ensures Split(Join(parts)) == parts
    decreases |parts|
  {
    var tail := parts[1..];
    SplitCommaFreePrefix(parts[0], JoinRest(tail));
    if |tail| == 0 {
      assert parts[0] + "" == parts[0];
      assert parts == [parts[0]];
    } else {
      assert JoinRest(tail) == "," + Join(tail);
      assert CommaFree(tail) by {
        forall i | 0 <= i < |tail| ensures ',' !in tail[i] {
          assert tail[i] == parts[i + 1];
        }
      }
      SplitJoin(tail);
      assert Split(JoinRest(tail)) == [""] + tail;
      assert parts[0] + "" == parts[0];
      assert parts == [parts[0]] + tail;
    }
  }

  /** Joining the pieces of any string gives the string back. */
  lemma {:induction false} JoinSplit(s: string)
    ensures Join(Split(s)) == s
    decreases |s|
  {
    if |s| > 0 {
      var rest := Split(s[1..]);
      JoinSplit(s[1..]);
      assert Join(rest) == rest[0] + JoinRest(rest[1..]);
      if s[0] == ',' {
        assert ([""] + rest)[1..] == rest;
        assert JoinRest(rest) == "," + rest[0] + JoinRest(rest[1..]);
        assert s == [s[0]] + s[1..];
      } else {
        var pieces := [[s[0]] + rest[0]] + rest[1..];
        assert pieces[1..] == rest[1..];
        assert s == [s[0]] + s[1..];
      }
    }
  }

  /** The pieces of a split contain no comma. */
  lemma {:induction false} SplitIsCommaFree(s: string)
    ensures CommaFree(Split(s))
    decreases |s|
  {
    if |s| > 0 {
      SplitIsCommaFree(s[1..]);
      var rest := Split(s[1..]);
      if s[0] == ',' {
        var pieces := [""] + rest;
        forall i | 0 <= i < |pieces| ensures ',' !in pieces[i] {
          if i > 0 {
            assert pieces[i] == rest[i - 1];
          }
        }
      } else {
        var pieces := [[s[0]] + rest[0]] + rest[1..];
        forall i | 0 <= i < |pieces| ensures ',' !in pieces[i] {
          if i > 0 {
            assert pieces[i] == rest[i];
          } else {
            assert ',' !in rest[0];
          }
        }
      }
    }
  }
}
